=== FILE: README.md ===
# CSharp_Shell, modelled in Dafny

A model of the one-file interactive shell `EnhancedShell` (Program.cs). The
shell reads one line at a time with a small line editor (Backspace, and Up/Down
to recall earlier lines), cuts the line into tokens at spaces, looks the first
token up in a command registry, runs the command (`echo` or `add`) on the other
tokens, and records every non-blank line in its history. Typing `exit` in any
letter case stops it.

Everything is pure functions over immutable values:

- `Text`: ASCII `ToLower`, `char.IsControl`, `char.IsWhiteSpace`,
  `string.IsNullOrWhiteSpace`, `string.Join`.
- `Int32`: the C# `int` range, unchecked wrap-around, `int.ToString()` and
  `int.TryParse`.
- `Tokenizer`: `ParseInput`, that is `Split(' ', RemoveEmptyEntries)`, with a
  character-level reference (`Squeeze`) for what its tokens join back to.
- `Commands`: `Command = Echo | Add` and the line each command writes.
- `CommandRegistry`: the name-to-command map, `Register` and `GetCommand`.
- `LineEditor`: the key-event state machine of `ReadInput` over
  (text, history cursor, history), with `Step`, a functional key loop `Feed`
  and the loop itself as the method `ReadInput`.
- `Shell`: one turn of the `Main` loop (`HandleLine`), the loop over finished
  lines (`RunLines`) and over raw key presses (`Run`).

Console output is modelled as the list of lines written; key presses are an
input list `seq<KeyInfo>`. `Register` stores the name exactly as given (only
the lookup lower-cases), so a name containing an upper-case letter can never
be found; the tokenizer splits at the space character only, not at every
white-space character.

## Model

| member | source | states |
|---|---|---|
| Text.LowerChar | Program.cs:50 | the result is never an upper-case ASCII letter; it differs from the input exactly when the input is upper-case, and then it is the same letter in lower case |
| Text.ToLower | Program.cs:72 | same length as the input, and every position holds the lower-cased input character |
| Text.ToLowerIdempotent | Program.cs:50 | lower-casing an already lower-cased name changes nothing |
| Text.IsControl | Program.cs:150 | printable ASCII characters are not control characters, while NUL, Backspace, carriage return and DEL are |
| Text.IsWhiteSpace | Program.cs:92 | visible ASCII characters are not white space, while space, tab, line feed and carriage return are |
| Text.IsBlank | Program.cs:92 | the empty string is blank, and a string holding a visible ASCII character is not |
| Text.Join | Program.cs:13 | joining no parts gives the empty string and joining one part gives that part |
| Int32.Wrap | Program.cs:23 | the result is a 32-bit value congruent to the exact sum modulo 2^32, and equal to it when the sum fits |
| Int32.Decimal | Program.cs:23 | the rendering is a non-empty run of decimal digits with no leading zero |
| Int32.ValueOfDecimal | Program.cs:23 | reading the rendered digits back gives the number |
| Int32.Format | Program.cs:23 | the rendering is non-empty, starts with '-' exactly for negative values and is all digits otherwise |
| Int32.TrimStart | Program.cs:21 | the result is empty exactly when the input is all white space, never starts with white space, and is the input itself when that does not start with white space |
| Int32.TrimStartDrops | Program.cs:21 | the input is what was dropped followed by the result, and all that was dropped is white space |
| Int32.TrimEnd | Program.cs:21 | the result is empty exactly when the input is all white space, never ends with white space, and is the input itself when that does not end with white space |
| Int32.TrimEndDrops | Program.cs:21 | the input is the result followed by what was dropped, and all that was dropped is white space |
| Int32.SplitSign | Program.cs:21 | a leading '+' or '-' is removed and the rest of the text is kept, any other text is kept whole, and the number is negative exactly when the removed character is '-' |
| Int32.SignedValue | Program.cs:21 | a value is produced exactly for a non-empty run of digits whose signed value lies in the 32-bit range, and it is that signed value |
| Int32.Parse | Program.cs:21 | a parsed value always lies in the 32-bit range |
| Int32.ParseLayout | Program.cs:21 | every string made of white space, an optional '+' or '-', one or more digits and white space parses to its signed value when that fits in 32 bits and is rejected otherwise |
| Int32.ParseAcceptsOnlyLayout | Program.cs:21 | conversely, every accepted string has that shape and parses to the signed value of its digits |
| Int32.ParseOfFormat | Program.cs:21 | a rendered number parses back to itself when it fits in 32 bits and is rejected otherwise |
| Int32.ParseFormat | Program.cs:21 | every 32-bit value survives rendering then parsing |
| Int32.ParseRejectsOutOfRange | Program.cs:21 | a value outside the 32-bit range is not accepted |
| Tokenizer.Split | Program.cs:160 | one more piece than there are separators, and no piece contains the separator |
| Tokenizer.RemoveEmpty | Program.cs:160 | the result has no empty piece and holds exactly the non-empty pieces of the input |
| Tokenizer.Tokenize | Program.cs:158-161 | no token is empty and no token contains a space |
| Tokenizer.SplitConcat | Program.cs:160 | splitting a string glued at one separator splits each side separately |
| Tokenizer.JoinSplit | Program.cs:160 | joining the pieces with the separator gives back the string |
| Tokenizer.SplitJoin | Program.cs:160 | splitting separator-free pieces joined by the separator gives back the pieces |
| Tokenizer.TokenizeConcat | Program.cs:160 | the tokens of a + " " + b are the tokens of a followed by the tokens of b |
| Tokenizer.TokenizeLeadingSpace | Program.cs:160 | a leading space does not change the tokens |
| Tokenizer.TokenizeJoin | Program.cs:160 | tokens joined with single spaces tokenize back to the same tokens, in order |
| Tokenizer.TokenizeEmpty | Program.cs:160 | a line yields no tokens exactly when it consists of spaces only (the empty line included) |
| Tokenizer.JoinTokenize | Program.cs:160 | joining the tokens with single spaces gives the line trimmed of outer spaces with every inner run of spaces reduced to one |
| Tokenizer.TokenizeWordEnd | Program.cs:160 | a character other than a space followed by a space is a token of its own, followed by the tokens of the rest |
| Tokenizer.JoinTokenizeWordEnd | Program.cs:160 | the step of that fact for a character followed by a space: it becomes a token of its own, followed by the tokens after the space |
| Tokenizer.JoinTokenizeInWord | Program.cs:160 | the step of that fact for a character inside a word: it is glued to the front of the first token of the rest |
| Commands.UsageIsNoResult | Program.cs:23-27 | no result line equals the usage message |
| Commands.EchoOutput | Program.cs:13 | echo with no arguments writes an empty line and with one argument writes it unchanged |
| Commands.SumLine | Program.cs:23 | a result line is never the usage message |
| Commands.AddOutput | Program.cs:19-28 | add writes the usage message exactly when there are fewer than two arguments or one of the first two does not parse |
| Commands.AddOutputSum | Program.cs:21-23 | with two parsing operands add writes the result line of their parsed values |
| Commands.AddSuccess | Program.cs:21-23 | with two parsing operands add writes "Result: " and the wrapped sum, and the printed sum parses back to that sum (to the exact sum when it fits) |
| Commands.Execute | Program.cs:85 | add writes the usage message exactly when its arguments are not accepted, and what echo writes tokenizes back to its arguments |
| Commands.AddIgnoresExtra | Program.cs:21 | arguments after the second do not affect the output |
| Commands.AddCommutes | Program.cs:21-23 | swapping the two operands does not change the output |
| Commands.AddTwoThree | Program.cs:23 | add 2 3 writes "Result: 5" |
| Commands.AddRejects | Program.cs:21-27 | add 2 x and add 2 write the usage message |
| Commands.AddWraps | Program.cs:23 | adding 1 to the largest int writes the smallest int |
| Commands.EchoRoundTrip | Program.cs:13 | echo with no arguments writes an empty line, and what echo writes tokenizes back to its arguments |
| CommandRegistry.Register | Program.cs:43-46 | the name is bound to the new command, replacing an earlier binding of exactly that name; every other name keeps its binding or absence |
| CommandRegistry.GetCommand | Program.cs:48-55 | a command is found exactly when the lower-cased query is a registered name, and it is the one bound there |
| CommandRegistry.Initial | Program.cs:36-41 | after construction exactly "echo" and "add" are bound, to Echo and Add |
| CommandRegistry.LookupIgnoresCase | Program.cs:50 | queries equal after lower-casing find the same command |
| CommandRegistry.LookupAfterRegister | Program.cs:43-55 | after registering k, a query finds the new command exactly when its lower-cased form is k, and otherwise what it found before |
| CommandRegistry.MixedCaseNameUnreachable | Program.cs:43-55 | a name registered with an upper-case letter changes no lookup result |
| CommandRegistry.InitialLookup | Program.cs:36-55 | the built-in registry finds Echo exactly for "echo" in any case, Add exactly for "add", and nothing for any other name |
| CommandRegistry.InitialExamples | Program.cs:36-55 | "ECHO" and "echo" find Echo, "Add" finds Add, "bogus" finds nothing |
| LineEditor.Shown | Program.cs:113-125 | the text shown for cursor -1 is empty; otherwise it is a history entry, the newest for cursor 0 and the oldest for the last cursor |
| LineEditor.Fresh | Program.cs:102-104 | each read starts with empty text and the cursor at -1, which is a valid state |
| LineEditor.Step | Program.cs:105-155 | the cursor stays within -1 and the newest-to-oldest range; the history is unchanged; the line is finished exactly on Enter, which changes nothing; the cursor moves by at most one, and whenever it moves the text becomes the entry it points at; the text only changes otherwise for a non-navigation key with the cursor left alone |
| LineEditor.UpKey | Program.cs:108-119 | Up at the oldest entry changes nothing; otherwise it moves one entry back and shows history[count-1-cursor] |
| LineEditor.DownKey | Program.cs:120-139 | Down while not browsing changes nothing; from the newest entry it clears the text and sets the cursor to -1; otherwise it moves one entry forward and shows it |
| LineEditor.BackspaceKey | Program.cs:145-154 | Backspace on non-empty text removes exactly its last character; on empty text it falls through to the character test and a control character changes nothing |
| LineEditor.CharacterKey | Program.cs:150-154 | a key whose character is not a control character appends it; a control character is ignored |
| LineEditor.DownUndoesUp | Program.cs:108-139 | while showing an entry, Up then Down returns to the same state |
| LineEditor.UpUndoesDown | Program.cs:108-139 | while showing an entry, Down then Up returns to the same state |
| LineEditor.RunKeys | Program.cs:105-155 | any run of keys keeps the cursor in range and the history unchanged |
| LineEditor.UpRepeated | Program.cs:108-119 | n presses of Up walk n entries back and stop at the oldest one |
| LineEditor.UpFromFresh | Program.cs:104-119 | from a fresh prompt, n presses of Up show the n-th newest entry, or the oldest when there are fewer |
| LineEditor.DownRepeated | Program.cs:120-139 | n presses of Down walk n entries forward, ending on an empty line at cursor -1 once past the newest entry |
| LineEditor.DownIdle | Program.cs:120-139 | Down does nothing, however often, while not browsing |
| LineEditor.TypingAppends | Program.cs:150-154 | typing printable characters appends exactly them |
| LineEditor.BackspaceRepeated | Program.cs:145-149 | n presses of Backspace drop the last n characters |
| LineEditor.BackspaceUndoesTyping | Program.cs:145-154 | typing a printable word and as many Backspaces restores the editor |
| LineEditor.Feed | Program.cs:105-155 | a line is returned exactly when some key is Enter; the cursor it leaves is in range and some keys were consumed |
| LineEditor.FeedThenEnter | Program.cs:140-144 | Enter returns the text exactly as the keys before it left it, and the keys after it are left unread |
| LineEditor.ReadInput | Program.cs:100-156 | the key loop returns what the functional key loop from a fresh editor returns, with the cursor in range |
| Shell.Start | Program.cs:60-62 | the shell starts with an empty history, cursor -1, and echo and add registered |
| Shell.IsExit | Program.cs:72 | an exit line has four characters and is never blank, so it would have been recorded had the loop not stopped first |
| Shell.Dispatch | Program.cs:79-91 | a line with no tokens writes nothing, any other line writes exactly one line |
| Shell.HandleLine | Program.cs:68-97 | the loop stops exactly for a line whose lower-cased form is "exit", writing only the exit message and changing nothing; otherwise output appears exactly when there are tokens, and the history grows by exactly this line, with the cursor reset to -1, exactly when the line is not blank |
| Shell.LineOutputs | Program.cs:79-91 | a line that is not exit writes what dispatching its tokens writes |
| Shell.CommandLine | Program.cs:79-96 | a non-blank line whose first token names a registered command writes exactly what that command writes for the other tokens, and is recorded |
| Shell.UnknownCommand | Program.cs:82-90 | an unregistered first token is reported as "Unknown command: " followed by the token verbatim |
| Shell.EchoLine | Program.cs:79-85 | an echo line writes its argument text trimmed with inner runs of spaces reduced to one |
| Shell.RunLines | Program.cs:68-97 | the history only grows at its end and the session stays valid |
| Shell.HistoryRecordsLines | Program.cs:92-96 | after a series of lines the history is the old one followed by exactly the non-blank lines before exit, in order |
| Shell.StopsAtExit | Program.cs:72-77 | the loop stops exactly when some line is exit |
| Shell.RunLinesAfterExit | Program.cs:72-77 | once some line is exit, lines appended after the list change neither the output, nor the session, nor the stop |
| Shell.NewestEntry | Program.cs:94 | the newest history entry is the last non-blank line entered before exit |
| Shell.EchoHi | Program.cs:79-96 | with echo registered, "echo hi" writes "hi" and is recorded |
| Shell.AddTwoThreeLine | Program.cs:79-96 | with add registered, "add 2 3" writes "Result: 5" and is recorded |
| Shell.BogusLine | Program.cs:79-96 | with "bogus" unregistered, "bogus" writes "Unknown command: bogus" and is recorded |
| Shell.ExitLine | Program.cs:72-77 | from any state, "exit" writes the exit message, records nothing and stops |
| Shell.YieldsCons | Program.cs:68-97 | a recorded line writing one line, followed by lines that stop the loop, writes that line first and is recorded first |
| Shell.BogusThenExit | Program.cs:68-97 | with the built-in bindings, the lines bogus, exit write the unknown-command message and the exit message, record bogus, and stop |
| Shell.AddThenRest | Program.cs:68-97 | with the built-in bindings, the lines add 2 3, bogus, exit write Result: 5 and then the two messages, and record the first two lines |
| Shell.Scenario | Program.cs:68-97 | from any state with the built-in bindings, the lines echo hi, add 2 3, bogus, exit write hi, Result: 5, Unknown command: bogus, Exiting shell... and record the first three lines |
| Shell.ScenarioFromStart | Program.cs:60-97 | the same session right after start-up |
| Shell.Run | Program.cs:64-98 | driven by key presses, the session stays valid, the registry is unchanged and the history only grows at its end; its output, history and stop are tied to the loop over lines by RunTypedLines, to recall by RunRecall, and to exit by RunIgnoresKeysAfterExit |
| Shell.TypedLine | Program.cs:100-156 | typing a printable line and Enter hands that line to the loop, with cursor -1 |
| Shell.RecallResubmits | Program.cs:108-119 | Up then Enter submits the newest history entry again, and it is recorded a second time |
| Shell.RunTypedLines | Program.cs:64-156 | typing printable lines, each followed by Enter, writes the same lines, leaves the same history and stops exactly as handing the lines to the loop directly, from sessions that agree on registry and history |
| Shell.RunMatchesRunLines | Program.cs:64-156 | the key-driven shell and the loop over finished lines agree on output, history and stopping for typed printable lines |
| Shell.RunIgnoresKeysAfterExit | Program.cs:64-77 | once a typed line is exit, whatever keys follow are never read: the key-driven shell writes, records and stops as the loop over the typed lines |
| Shell.RunCons | Program.cs:68-97 | the key-driven shell handles the first line the keys finish, with the cursor the editor left, and then goes on with the remaining keys unless that line is exit |
| Shell.RunTypedThen | Program.cs:64-156 | a typed printable line that is not exit, then Enter, is handled and the shell goes on with the keys after it |
| Shell.RunUpEnter | Program.cs:108-119 | in the running shell, Up then Enter runs the newest history entry again and records it a second time |
| Shell.RunRecall | Program.cs:64-156 | typing a line and Enter, then Up and Enter, writes that line's output twice, records the line twice and does not stop |

## Left out

- Terminal rendering: moving the console cursor to column 7, blanking the rest of the window width, the "\b \b" erase, echoing characters and the newline on Enter. The model keeps the editor's logical state only.
- Blocking input: `Console.ReadKey` becomes a list of key presses; when the list ends before an Enter the model reports that no line was read yet (`Feed` returns `None`, `Run` stops).
- The acknowledgement key press after "Exiting shell..." and process termination: blocking I/O with no effect on the modelled state.
- The `ICommand` interface and virtual dispatch: replaced by the datatype `Command = Echo | Add` and a match.
- The static fields of `EnhancedShell`: held in the immutable `Shell.Session` record instead.
- Text.LowerChar: lower-cases ASCII letters only; the culture-sensitive full Unicode mapping of `string.ToLower` (and, say, the Turkish dotless i) is not modelled.
- Int32.Parse: accepts only '+' and '-' as signs and does not accept the trailing NUL characters the .NET parser tolerates; `int.TryParse` without a format provider uses the current culture's sign symbols.
- Int32.Format: renders a negative number with '-'; `int.ToString()` without a format provider uses the current culture's negative sign, which other cultures may spell differently.
- The `shell> ` prompt written before every read: console output with no effect on the modelled state, and not part of the modelled output lines, which hold only what `Console.WriteLine` writes.
- C# `char` is a UTF-16 code unit while a Dafny `char` is a Unicode scalar value, so lone surrogate halves are not modelled.
- The null branch of `string.IsNullOrWhiteSpace`: `ReadInput` never returns null.

=== FILE: commands.dfy ===
/**
 The two built-in commands, `EchoCommand` and `AddCommand`. Each command is
 modelled by the line it writes with `Console.WriteLine`.
 */
module Commands {
  import opened Wrappers
  import opened Text
  import opened Int32
  import Tokenizer

  /** The `ICommand` implementations of the shell. */
  datatype Command = Echo | Add

  const ErrorPrefix: string := "Error: "
  const AddUsage: string := ErrorPrefix + "'add' command requires two integer arguments."
  const ResultPrefix: string := "Result: "

  /** `EchoCommand.Execute`: the arguments separated by single spaces. */
  function EchoOutput(args: seq<string>): (out: string)
    ensures args == [] ==> out == ""
    ensures |args| == 1 ==> out == args[0]
  {
    Join(" ", args)
  }

  /** Whether the first two arguments are present and both parse as 32-bit integers. */
  predicate AddAccepts(args: seq<string>) {
    |args| >= 2 && Parse(args[0]).Some? && Parse(args[1]).Some?
  }

  /** The usage message never looks like a result line. */
  lemma UsageIsNoResult(digits: string)
    ensures ResultPrefix + digits != AddUsage
  {
    assert (ResultPrefix + digits)[0] == 'R';
    assert AddUsage[0] == ErrorPrefix[0] == 'E';
  }

  /** The line add prints for the operands a and b: their sum as an unchecked
      32-bit `int`. */
  function SumLine(a: int, b: int): (out: string)
    ensures out != AddUsage
  {
    var digits := Format(Wrap(a + b));
    UsageIsNoResult(digits);
    ResultPrefix + digits
  }

  /** `AddCommand.Execute`: the 32-bit sum of the first two arguments, or the
      usage message. */
  function AddOutput(args: seq<string>): (out: string)
    ensures out == AddUsage <==> !AddAccepts(args)
  {
    if |args| < 2 then AddUsage
    else
      match (Parse(args[0]), Parse(args[1]))
      case (Some(a), Some(b)) => SumLine(a, b)
      case _ => AddUsage
  }

  /** `ICommand.Execute`, dispatched on the command: add answers with the usage
      message exactly when it rejects its arguments, and what echo writes
      tokenizes back to its arguments. */
  function Execute(c: Command, args: seq<string>): (out: string)
    ensures c == Add ==> (out == AddUsage <==> !AddAccepts(args))
    ensures c == Echo && Tokenizer.AreTokens(args) ==> Tokenizer.Tokenize(out) == args
  {
    match c
    case Echo =>
      var out := EchoOutput(args);
      assert Tokenizer.AreTokens(args) ==> Tokenizer.Tokenize(out) == args by {
        if Tokenizer.AreTokens(args) {
          EchoRoundTrip(args);
        }
      }
      out
    case Add => AddOutput(args)
  }

  /** When both operands parse, add prints the sum line of their values. */
  lemma AddOutputSum(args: seq<string>, a: int, b: int)
    requires |args| >= 2 && Parse(args[0]) == Some(a) && Parse(args[1]) == Some(b)
    ensures AddOutput(args) == SumLine(a, b)
  {
  }

  lemma DropPrefix<T>(p: seq<T>, d: seq<T>)
    ensures (p + d)[|p|..] == d
  {
  }

  /** When both operands parse, add prints "Result: " and the wrapped sum, and
      the printed sum reads back as that sum. */
  lemma AddSuccess(args: seq<string>, a: int, b: int)
    requires |args| >= 2 && Parse(args[0]) == Some(a) && Parse(args[1]) == Some(b)
    ensures AddOutput(args) == ResultPrefix + Format(Wrap(a + b))
    ensures Parse(AddOutput(args)[|ResultPrefix|..]) == Some(Wrap(a + b))
    ensures InRange(a + b) ==> Parse(AddOutput(args)[|ResultPrefix|..]) == Some(a + b)
  {
    var digits := Format(Wrap(a + b));
    AddOutputSum(args, a, b);
    DropPrefix(ResultPrefix, digits);
    ParseFormat(Wrap(a + b));
  }

  /** Arguments after the second are never looked at. */
  lemma AddIgnoresExtra(args: seq<string>)
    requires |args| >= 2
    ensures AddOutput(args) == AddOutput(args[..2])
  {
  }

  /** The order of the two operands does not matter. */
  lemma AddCommutes(x: string, y: string)
    ensures AddOutput([x, y]) == AddOutput([y, x])
  {
  }

  /** "add 2 3" prints "Result: 5". */
  lemma AddTwoThree()
    ensures AddOutput(["2", "3"]) == "Result: 5"
  {
    assert Format(2) == "2" && Format(3) == "3" && Format(5) == "5";
    ParseFormat(2);
    ParseFormat(3);
  }

  /** A missing or non-numeric operand gives the usage message. */
  lemma AddRejects()
    ensures AddOutput(["2", "x"]) == AddUsage
    ensures AddOutput(["2"]) == AddUsage
  {
    assert TrimStart("x") == "x";
    assert Trim("x") == "x";
    assert !AllDigits("x");
  }

  /** The sum wraps around: adding one to the largest `int` prints the smallest. */
  lemma AddWraps()
    ensures AddOutput([Format(Max), "1"]) == ResultPrefix + Format(Min)
  {
    assert Format(1) == "1";
    ParseFormat(Max);
    ParseFormat(1);
    assert Wrap(Max + 1) == Min;
  }

  /** Echo with no arguments prints an empty line, and echoed tokens tokenize
      back to the same arguments. */
  lemma EchoRoundTrip(args: seq<string>)
    requires Tokenizer.AreTokens(args)
    ensures args == [] ==> EchoOutput(args) == ""
    ensures Tokenizer.Tokenize(EchoOutput(args)) == args
  {
    Tokenizer.TokenizeJoin(args);
  }

}

=== FILE: editor.dfy ===
/**
 `ReadInput`: the line editor. Its state is the text typed so far, the history
 cursor and the history list; each key press is one transition, and Enter hands
 the text back as the finished line. The history cursor counts back from the
 newest entry, and -1 means the editor is not showing a history entry.
 */
module LineEditor {
  import opened Wrappers
  import opened Text

  /** The `ConsoleKey` values the editor tells apart; every other key is `OtherKey`. */
  datatype ConsoleKey = UpArrow | DownArrow | Enter | Backspace | OtherKey

  /** `ConsoleKeyInfo`: the key pressed and the character it produces. */
  datatype KeyInfo = KeyInfo(key: ConsoleKey, keyChar: char)

  datatype Editor = Editor(buffer: string, cursor: int, history: seq<string>)

  /** The cursor is -1 or indexes an entry counted back from the newest. */
  predicate Valid(e: Editor) {
    -1 <= e.cursor < |e.history|
  }

  /** The text history navigation shows at cursor c: nothing at -1, otherwise
      the entry c places back from the newest. */
  function Shown(history: seq<string>, c: int): (r: string)
    requires -1 <= c < |history|
    ensures c == -1 ==> r == ""
    ensures c >= 0 ==> r in history
    ensures c == 0 ==> r == history[|history| - 1]
    ensures c >= 0 && c == |history| - 1 ==> r == history[0]
  {
    if c == -1 then "" else history[|history| - 1 - c]
  }

  /** The editor as `ReadInput` starts it: empty text, not browsing. */
  function Fresh(history: seq<string>): (e: Editor)
    ensures Valid(e)
  {
    Editor("", -1, history)
  }

  /** The outcome of one key: the new editor, and whether the line is finished. */
  datatype Reaction = Reaction(editor: Editor, done: bool)

  /** One pass of the key loop of `ReadInput`. */
  function Step(e: Editor, k: KeyInfo): (r: Reaction)
    requires Valid(e)
    ensures Valid(r.editor) && r.editor.history == e.history
    ensures r.done <==> k.key == Enter
    ensures r.done ==> r.editor == e
    ensures -1 <= r.editor.cursor - e.cursor <= 1
    ensures r.editor.cursor != e.cursor ==> r.editor.buffer == Shown(e.history, r.editor.cursor)
    ensures r.editor.buffer != e.buffer && k.key != UpArrow && k.key != DownArrow ==> r.editor.cursor == e.cursor
  {
    var h := e.history;
    match k.key
    case UpArrow =>
      if e.cursor < |h| - 1 then Reaction(Editor(Shown(h, e.cursor + 1), e.cursor + 1, h), false)
      else Reaction(e, false)
    case DownArrow =>
      if e.cursor > 0 then Reaction(Editor(Shown(h, e.cursor - 1), e.cursor - 1, h), false)
      else if e.cursor == 0 then Reaction(Editor("", -1, h), false)
      else Reaction(e, false)
    case Enter =>
      Reaction(e, true)
    case _ =>
      if k.key == Backspace && |e.buffer| > 0 then Reaction(e.(buffer := e.buffer[..|e.buffer| - 1]), false)
      else if !IsControl(k.keyChar) then Reaction(e.(buffer := e.buffer + [k.keyChar]), false)
      else Reaction(e, false)
  }

  /** Up moves one entry further back and shows it, unless the oldest entry is
      already shown, in which case nothing changes. */
  lemma UpKey(e: Editor, k: KeyInfo)
    requires Valid(e) && k.key == UpArrow
    ensures e.cursor == |e.history| - 1 ==> Step(e, k) == Reaction(e, false)
    ensures e.cursor < |e.history| - 1 ==>
      var n := Step(e, k).editor;
      n.cursor == e.cursor + 1 && n.buffer == e.history[|e.history| - 1 - n.cursor]
  {
  }

  /** Down moves one entry forward and shows it; from the newest entry it goes
      back to an empty line; when not browsing it does nothing. */
  lemma DownKey(e: Editor, k: KeyInfo)
    requires Valid(e) && k.key == DownArrow
    ensures e.cursor == -1 ==> Step(e, k) == Reaction(e, false)
    ensures e.cursor == 0 ==> Step(e, k).editor == Editor("", -1, e.history)
    ensures e.cursor > 0 ==>
      var n := Step(e, k).editor;
      n.cursor == e.cursor - 1 && n.buffer == e.history[|e.history| - 1 - n.cursor]
  {
  }

  /** Backspace removes exactly the last character; on an empty line it is
      treated like any other key, which changes nothing for a control character. */
  lemma BackspaceKey(e: Editor, k: KeyInfo)
    requires Valid(e) && k.key == Backspace
    ensures |e.buffer| > 0 ==> Step(e, k).editor == e.(buffer := e.buffer[..|e.buffer| - 1])
    ensures |e.buffer| > 0 ==> Step(e, k).editor.buffer + [e.buffer[|e.buffer| - 1]] == e.buffer
    ensures |e.buffer| == 0 && IsControl(k.keyChar) ==> Step(e, k) == Reaction(e, false)
    ensures |e.buffer| == 0 && !IsControl(k.keyChar) ==> Step(e, k).editor == e.(buffer := [k.keyChar])
  {
  }

  /** Any other key appends its character unless that is a control character,
      which is ignored. */
  lemma CharacterKey(e: Editor, k: KeyInfo)
    requires Valid(e) && k.key == OtherKey
    ensures !IsControl(k.keyChar) ==> Step(e, k).editor == e.(buffer := e.buffer + [k.keyChar])
    ensures IsControl(k.keyChar) ==> Step(e, k) == Reaction(e, false)
  {
  }

  const UpPress: KeyInfo := KeyInfo(UpArrow, '\0')
  const DownPress: KeyInfo := KeyInfo(DownArrow, '\0')
  const BackspacePress: KeyInfo := KeyInfo(Backspace, '\U{8}')
  const EnterPress: KeyInfo := KeyInfo(Enter, '\r')

  /** Showing an entry and pressing Up then Down shows it again. */
  lemma DownUndoesUp(e: Editor)
    requires Valid(e) && e.cursor < |e.history| - 1
    requires e.buffer == Shown(e.history, e.cursor)
    ensures Step(Step(e, UpPress).editor, DownPress).editor == e
  {
  }

  /** Showing an entry and pressing Down then Up shows it again. */
  lemma UpUndoesDown(e: Editor)
    requires Valid(e) && e.cursor >= 0
    requires e.buffer == Shown(e.history, e.cursor)
    ensures Step(Step(e, DownPress).editor, UpPress).editor == e
  {
  }

  /** The editor after a run of keys; Enter leaves the editor as it is. */
  function RunKeys(e: Editor, keys: seq<KeyInfo>): (r: Editor)
    requires Valid(e)
    ensures Valid(r) && r.history == e.history
    decreases |keys|
  {
    if |keys| == 0 then e else RunKeys(Step(e, keys[0]).editor, keys[1..])
  }

  lemma {:induction false} RunConcat(e: Editor, a: seq<KeyInfo>, b: seq<KeyInfo>)
    requires Valid(e)
    ensures RunKeys(e, a + b) == RunKeys(RunKeys(e, a), b)
    decreases |a|
  {
    if |a| == 0 {
      assert a + b == b;
    } else {
      assert (a + b)[1..] == a[1..] + b;
      RunConcat(Step(e, a[0]).editor, a[1..], b);
    }
  }

  function Repeat(k: KeyInfo, n: nat): (r: seq<KeyInfo>)
    ensures |r| == n && forall i :: 0 <= i < n ==> r[i] == k
  {
    seq(n, _ => k)
  }

  function MinInt(a: int, b: int): int {
    if a <= b then a else b
  }

  /** Pressing Up n times while an entry (or nothing) is shown walks back n
      entries, stopping at the oldest. */
  lemma {:induction false} UpRepeated(e: Editor, n: nat)
    requires Valid(e) && e.buffer == Shown(e.history, e.cursor)
    ensures var c := MinInt(e.cursor + n, |e.history| - 1);
      RunKeys(e, Repeat(UpPress, n)) == Editor(Shown(e.history, c), c, e.history)
    decreases n
  {
    var ups := Repeat(UpPress, n);
    if n > 0 {
      var next := Step(e, UpPress).editor;
      assert ups[1..] == Repeat(UpPress, n - 1);
      UpRepeated(next, n - 1);
    }
  }

  /** From a fresh prompt, n presses of Up show the n-th newest entry, or the
      oldest one when there are fewer than n entries. */
  lemma UpFromFresh(history: seq<string>, n: nat)
    requires 0 < n
    requires |history| > 0
    ensures var c := MinInt(n, |history|) - 1;
      RunKeys(Fresh(history), Repeat(UpPress, n)) == Editor(history[|history| - 1 - c], c, history)
  {
    UpRepeated(Fresh(history), n);
  }

  /** Pressing Down n times while browsing walks forward n entries; once past the
      newest entry the line is empty and further presses do nothing. */
  lemma {:induction false} DownRepeated(e: Editor, n: nat)
    requires Valid(e) && e.cursor >= 0 && e.buffer == Shown(e.history, e.cursor)
    ensures var c := if e.cursor - n < -1 then -1 else e.cursor - n;
      RunKeys(e, Repeat(DownPress, n)) == Editor(Shown(e.history, c), c, e.history)
    decreases n
  {
    var downs := Repeat(DownPress, n);
    if n > 0 {
      var next := Step(e, DownPress).editor;
      assert downs[1..] == Repeat(DownPress, n - 1);
      if next.cursor >= 0 {
        DownRepeated(next, n - 1);
      } else {
        DownIdle(next, n - 1);
      }
    }
  }

  /** Down does nothing while not browsing. */
  lemma {:induction false} DownIdle(e: Editor, n: nat)
    requires Valid(e) && e.cursor == -1
    ensures RunKeys(e, Repeat(DownPress, n)) == e
    decreases n
  {
    if n > 0 {
      assert Repeat(DownPress, n)[1..] == Repeat(DownPress, n - 1);
      DownIdle(e, n - 1);
    }
  }

  /** The key presses that type the characters of w. */
  function Typed(w: string): (r: seq<KeyInfo>)
    ensures |r| == |w| && forall i :: 0 <= i < |w| ==> r[i] == KeyInfo(OtherKey, w[i])
  {
    seq(|w|, i requires 0 <= i < |w| => KeyInfo(OtherKey, w[i]))
  }

  predicate Printable(w: string) {
    forall i :: 0 <= i < |w| ==> !IsControl(w[i])
  }

  /** Typing printable characters appends them and leaves the cursor alone. */
  lemma {:induction false} TypingAppends(e: Editor, w: string)
    requires Valid(e) && Printable(w)
    ensures RunKeys(e, Typed(w)) == e.(buffer := e.buffer + w)
    decreases |w|
  {
    if |w| > 0 {
      var next := Step(e, Typed(w)[0]).editor;
      assert next == e.(buffer := e.buffer + [w[0]]);
      assert Typed(w)[1..] == Typed(w[1..]);
      TypingAppends(next, w[1..]);
      assert e.buffer + [w[0]] + w[1..] == e.buffer + w;
    }
  }

  /** n presses of Backspace drop the last n characters. */
  lemma {:induction false} BackspaceRepeated(e: Editor, n: nat)
    requires Valid(e) && n <= |e.buffer|
    ensures RunKeys(e, Repeat(BackspacePress, n)) == e.(buffer := e.buffer[..|e.buffer| - n])
    decreases n
  {
    if n > 0 {
      var next := Step(e, BackspacePress).editor;
      assert Repeat(BackspacePress, n)[1..] == Repeat(BackspacePress, n - 1);
      BackspaceRepeated(next, n - 1);
      assert next.buffer[..|next.buffer| - (n - 1)] == e.buffer[..|e.buffer| - n];
    }
  }

  /** Typing a printable word and then as many Backspaces restores the editor. */
  lemma BackspaceUndoesTyping(e: Editor, w: string)
    requires Valid(e) && Printable(w)
    ensures RunKeys(e, Typed(w) + Repeat(BackspacePress, |w|)) == e
  {
    RunConcat(e, Typed(w), Repeat(BackspacePress, |w|));
    TypingAppends(e, w);
    BackspaceRepeated(e.(buffer := e.buffer + w), |w|);
    assert (e.buffer + w)[..|e.buffer|] == e.buffer;
  }

  /** A finished line: its text, the history cursor at that moment, and the keys
      not yet read. */
  datatype Submission = Submission(line: string, cursor: int, rest: seq<KeyInfo>)

  /** The key loop of `ReadInput` from the editor e: it returns at the first
      Enter, and with no Enter it is still waiting. */
  function Feed(e: Editor, keys: seq<KeyInfo>): (r: Option<Submission>)
    requires Valid(e)
    ensures r.None? <==> forall i :: 0 <= i < |keys| ==> keys[i].key != Enter
    ensures r.Some? ==> -1 <= r.value.cursor < |e.history| && |r.value.rest| < |keys|
    decreases |keys|
  {
    if |keys| == 0 then None
    else
      var st := Step(e, keys[0]);
      if st.done then Some(Submission(st.editor.buffer, st.editor.cursor, keys[1..]))
      else
        var r := Feed(st.editor, keys[1..]);
        assert forall i :: 1 <= i < |keys| ==> keys[i] == keys[1..][i - 1];
        r
  }

  /** Enter hands back the text exactly as the keys before it left it. */
  lemma {:induction false} FeedThenEnter(e: Editor, keys: seq<KeyInfo>, enter: KeyInfo, rest: seq<KeyInfo>)
    requires Valid(e) && enter.key == Enter
    requires forall i :: 0 <= i < |keys| ==> keys[i].key != Enter
    ensures var last := RunKeys(e, keys);
      Feed(e, keys + [enter] + rest) == Some(Submission(last.buffer, last.cursor, rest))
    decreases |keys|
  {
    var all := keys + [enter] + rest;
    if |keys| == 0 {
      assert all[0] == enter && all[1..] == rest;
    } else {
      assert all[0] == keys[0];
      assert all[1..] == keys[1..] + [enter] + rest;
      FeedThenEnter(Step(e, keys[0]).editor, keys[1..], enter, rest);
    }
  }

  /** `ReadInput`: start a fresh editor over the history and read keys until Enter. */
  method ReadInput(history: seq<string>, keys: seq<KeyInfo>) returns (r: Option<Submission>)
    ensures r == Feed(Fresh(history), keys)
    ensures r.Some? ==> -1 <= r.value.cursor < |history|
  {
    var e := Fresh(history);
    var i := 0;
    while i < |keys|
      invariant 0 <= i <= |keys|
      invariant Valid(e) && e.history == history
      invariant Feed(Fresh(history), keys) == Feed(e, keys[i..])
    {
      assert keys[i..][0] == keys[i] && keys[i..][1..] == keys[i + 1..];
      var st := Step(e, keys[i]);
      if st.done {
        return Some(Submission(st.editor.buffer, st.editor.cursor, keys[i + 1..]));
      }
      e := st.editor;
      i := i + 1;
    }
    return None;
  }

}

=== FILE: int32.dfy ===
/**
 The 32-bit signed integers of C#: the range, unchecked wrap-around, decimal
 rendering (`int.ToString()`), and `int.TryParse` under `NumberStyles.Integer`.
 */
module Int32 {
  import opened Wrappers

  const Min: int := -0x8000_0000
  const Max: int := 0x7FFF_FFFF
  const Modulus: int := 0x1_0000_0000

  predicate InRange(x: int) {
    Min <= x <= Max
  }

  /** The value an unchecked C# `int` expression has when its exact result is x. */
  function Wrap(x: int): (r: int)
    ensures InRange(r)
    ensures (x - r) % Modulus == 0
    ensures InRange(x) ==> r == x
  {
    var k := (x - Min) / Modulus;
    assert x - Min == k * Modulus + (x - Min) % Modulus;
    (x - Min) % Modulus + Min
  }

  predicate IsDigit(c: char) {
    '0' <= c <= '9'
  }

  predicate AllDigits(s: string) {
    forall i :: 0 <= i < |s| ==> IsDigit(s[i])
  }

  function DigitChar(d: nat): (c: char)
    requires d < 10
    ensures IsDigit(c) && c as int - '0' as int == d
  {
    ('0' as int + d) as char
  }

  /** The decimal digits of n, most significant first, without leading zeros. */
  function Decimal(n: nat): (s: string)
    ensures |s| >= 1 && AllDigits(s)
    ensures s[0] == '0' ==> n == 0
    decreases n
  {
    if n < 10 then [DigitChar(n)] else Decimal(n / 10) + [DigitChar(n % 10)]
  }

  /** The number a string of decimal digits denotes. */
  function Value(s: string): nat
    requires AllDigits(s)
    decreases |s|
  {
    if |s| == 0 then 0 else Value(s[..|s| - 1]) * 10 + (s[|s| - 1] as int - '0' as int)
  }

  /** Reading back the digits of n gives n. */
  lemma {:induction false} ValueOfDecimal(n: nat)
    ensures Value(Decimal(n)) == n
    decreases n
  {
    if n >= 10 {
      var d := Decimal(n / 10);
      var s := d + [DigitChar(n % 10)];
      assert s[..|s| - 1] == d;
      ValueOfDecimal(n / 10);
    }
  }

  /** `int.ToString()`, with '-' as the negative sign. */
  function Format(i: int): (s: string)
    ensures |s| >= 1
    ensures s[0] == '-' <==> i < 0
    ensures s[0] != '-' ==> AllDigits(s)
  {
    if i < 0 then "-" + Decimal(-i) else Decimal(i)
  }

  /** The white space `NumberStyles.Integer` tolerates around a number:
      U+0009..U+000D and U+0020. */
  predicate IsNumberWhite(c: char) {
    c == ' ' || '\t' <= c <= '\r'
  }

  /** Whether every character of w is such white space. */
  predicate AllNumberWhite(w: string) {
    forall i :: 0 <= i < |w| ==> IsNumberWhite(w[i])
  }

  /** The input without its leading white space; `TrimStartDrops` shows that
      what is dropped is all white space. */
  function TrimStart(s: string): (r: string)
    ensures |r| <= |s|
    ensures r == "" || !IsNumberWhite(r[0])
    ensures |s| > 0 && !IsNumberWhite(s[0]) ==> r == s
    ensures r == "" <==> AllNumberWhite(s)
    decreases |s|
  {
    if |s| > 0 && IsNumberWhite(s[0]) then TrimStart(s[1..]) else s
  }

  /** The input without its trailing white space; `TrimEndDrops` shows that
      what is dropped is all white space. */
  function TrimEnd(s: string): (r: string)
    ensures |r| <= |s|
    ensures r == "" || !IsNumberWhite(r[|r| - 1])
    ensures |s| > 0 && !IsNumberWhite(s[|s| - 1]) ==> r == s
    ensures r == "" <==> AllNumberWhite(s)
    decreases |s|
  {
    if |s| > 0 && IsNumberWhite(s[|s| - 1]) then TrimEnd(s[..|s| - 1]) else s
  }

  /** `TrimStart` keeps a suffix of its input and drops only white space. */
  lemma {:induction false} TrimStartDrops(s: string)
    ensures var k := |s| - |TrimStart(s)|;
      s == s[..k] + TrimStart(s) && AllNumberWhite(s[..k])
    decreases |s|
  {
    if |s| > 0 && IsNumberWhite(s[0]) {
      TrimStartDrops(s[1..]);
      var k := |s| - |TrimStart(s)|;
      assert s[..k] == [s[0]] + s[1..][..k - 1];
    }
  }

  /** `TrimEnd` keeps a prefix of its input and drops only white space. */
  lemma {:induction false} TrimEndDrops(s: string)
    ensures var k := |TrimEnd(s)|;
      s == TrimEnd(s) + s[k..] && AllNumberWhite(s[k..])
    decreases |s|
  {
    if |s| > 0 && IsNumberWhite(s[|s| - 1]) {
      TrimEndDrops(s[..|s| - 1]);
      var k := |TrimEnd(s)|;
      assert s[k..] == s[..|s| - 1][k..] + [s[|s| - 1]];
    }
  }

  /** The text `NumberStyles.Integer` looks at once surrounding white space is skipped. */
  function Trim(s: string): string {
    TrimEnd(TrimStart(s))
  }

  predicate IsSign(c: char) {
    c == '+' || c == '-'
  }

  /** Whether the number is negated, and the text after its optional sign. */
  function SplitSign(t: string): (r: (bool, string))
    ensures |r.1| <= |t| <= |r.1| + 1
    ensures |r.1| < |t| <==> |t| > 0 && IsSign(t[0])
    ensures r.0 <==> |t| > 0 && t[0] == '-'
    ensures |t| > 0 && IsSign(t[0]) ==> r.1 == t[1..]
    ensures !(|t| > 0 && IsSign(t[0])) ==> r.1 == t
  {
    if |t| > 0 && t[0] == '-' then (true, t[1..])
    else if |t| > 0 && t[0] == '+' then (false, t[1..])
    else (false, t)
  }

  /** The number a sign text ("", "+" or "-") and a run of digits denote. */
  function Signed(negative: bool, digits: string): int
    requires AllDigits(digits)
  {
    if negative then 0 - Value(digits) else Value(digits)
  }

  /** The value of a signed run of digits, when there is at least one digit and
      the value fits in 32 bits. */
  function SignedValue(negative: bool, digits: string): (r: Option<int>)
    ensures r.Some? <==> |digits| > 0 && AllDigits(digits) && InRange(Signed(negative, digits))
    ensures r.Some? ==> r.value == Signed(negative, digits)
  {
    if |digits| == 0 || !AllDigits(digits) then None
    else
      var v := Signed(negative, digits);
      if InRange(v) then Some(v) else None
  }

  /** `int.TryParse(s, out n)`: optional surrounding white space, an optional
      sign, then one or more decimal digits whose value fits in 32 bits. */
  function Parse(s: string): (r: Option<int>)
    ensures r.Some? ==> InRange(r.value)
  {
    var (negative, digits) := SplitSign(Trim(s));
    SignedValue(negative, digits)
  }

  /** The sign texts `NumberStyles.Integer` allows in front of the digits. */
  predicate IsSignText(p: string) {
    p == "" || p == "+" || p == "-"
  }

  /** s is white space w1, a sign text p, one or more digits d, and white space w2. */
  predicate Layout(s: string, w1: string, p: string, d: string, w2: string) {
    && s == w1 + p + d + w2
    && AllNumberWhite(w1) && IsSignText(p) && |d| > 0 && AllDigits(d) && AllNumberWhite(w2)
  }

  lemma {:induction false} TrimStartOfWhite(w: string, x: string)
    requires AllNumberWhite(w) && (x == "" || !IsNumberWhite(x[0]))
    ensures TrimStart(w + x) == x
    decreases |w|
  {
    if |w| > 0 {
      assert (w + x)[1..] == w[1..] + x;
      TrimStartOfWhite(w[1..], x);
    } else {
      assert w + x == x;
    }
  }

  lemma {:induction false} TrimEndOfWhite(x: string, w: string)
    requires AllNumberWhite(w) && (x == "" || !IsNumberWhite(x[|x| - 1]))
    ensures TrimEnd(x + w) == x
    decreases |w|
  {
    if |w| > 0 {
      assert (x + w)[..|x + w| - 1] == x + w[..|w| - 1];
      TrimEndOfWhite(x, w[..|w| - 1]);
    } else {
      assert x + w == x;
    }
  }

  /** Trimming removes exactly the white space around a text that neither
      starts nor ends with white space. */
  lemma TrimAround(w1: string, t: string, w2: string)
    requires AllNumberWhite(w1) && AllNumberWhite(w2)
    requires |t| > 0 && !IsNumberWhite(t[0]) && !IsNumberWhite(t[|t| - 1])
    ensures Trim(w1 + t + w2) == t
  {
    assert w1 + t + w2 == w1 + (t + w2);
    assert (t + w2)[0] == t[0];
    TrimStartOfWhite(w1, t + w2);
    TrimEndOfWhite(t, w2);
  }

  /** A sign text in front of digits is split off, and only "-" negates. */
  lemma SplitSignText(p: string, d: string)
    requires IsSignText(p) && |d| > 0 && AllDigits(d)
    ensures SplitSign(p + d) == (p == "-", d)
  {
    var t := p + d;
    if p == "" {
      assert t == d;
      assert !IsSign(d[0]);
    } else {
      assert t[0] == p[0] && t[1..] == d;
    }
  }

  /** Every string of the accepted shape parses to its signed value exactly when
      that value fits in 32 bits: surrounding white space, a '+' and leading
      zeros are all allowed. */
  lemma ParseLayout(s: string, w1: string, p: string, d: string, w2: string)
    requires Layout(s, w1, p, d, w2)
    ensures var v := Signed(p == "-", d);
      Parse(s) == if InRange(v) then Some(v) else None
  {
    var t := p + d;
    assert s == w1 + t + w2;
    assert t[0] == (if p == "" then d[0] else p[0]);
    assert t[|t| - 1] == d[|d| - 1];
    TrimAround(w1, t, w2);
    SplitSignText(p, d);
  }

  /** What `SplitSign` removes is a sign text, and only "-" negates. */
  lemma SignPrefix(t: string)
    ensures var sp := SplitSign(t);
      var p := t[..|t| - |sp.1|];
      t == p + sp.1 && IsSignText(p) && (sp.0 <==> p == "-")
  {
    var sp := SplitSign(t);
    var p := t[..|t| - |sp.1|];
    if |p| == 1 {
      assert p == [t[0]];
    } else {
      assert p == "";
    }
  }

  /** Trimming cuts s into leading white space, the trimmed text and trailing
      white space. */
  lemma TrimParts(s: string) returns (w1: string, w2: string)
    ensures s == w1 + Trim(s) + w2 && AllNumberWhite(w1) && AllNumberWhite(w2)
  {
    var t1 := TrimStart(s);
    TrimStartDrops(s);
    TrimEndDrops(t1);
    w1 := s[..|s| - |t1|];
    w2 := t1[|Trim(s)|..];
    assert s == w1 + t1;
    assert t1 == Trim(s) + w2;
    assert s == w1 + Trim(s) + w2 by {
      assert w1 + t1 == w1 + (Trim(s) + w2) == w1 + Trim(s) + w2;
    }
  }

  /** Conversely, only strings of that shape are accepted, with that value. */
  lemma ParseAcceptsOnlyLayout(s: string)
    requires Parse(s).Some?
    ensures exists w1, p, d, w2 :: Layout(s, w1, p, d, w2) && Parse(s) == Some(Signed(p == "-", d))
  {
    var w1, w2 := TrimParts(s);
    var t := Trim(s);
    var sp := SplitSign(t);
    var d := sp.1;
    var p := t[..|t| - |d|];
    assert Parse(s) == SignedValue(sp.0, d);
    SignPrefix(t);
    assert s == w1 + p + d + w2 by {
      assert s == w1 + (p + d) + w2;
    }
    assert Layout(s, w1, p, d, w2);
  }

  /** Trimming leaves alone a string that neither starts nor ends with white space. */
  lemma TrimUnchanged(s: string)
    requires |s| > 0 && !IsNumberWhite(s[0]) && !IsNumberWhite(s[|s| - 1])
    ensures Trim(s) == s
  {
    assert TrimStart(s) == s;
  }

  /** What `Parse` makes of a rendered number. */
  lemma ParseOfFormat(i: int)
    ensures Parse(Format(i)) == (if InRange(i) then Some(i) else None)
  {
    var n: nat := if i < 0 then -i else i;
    var s := Format(i);
    ValueOfDecimal(n);
    TrimUnchanged(s);
    if i < 0 {
      assert s[1..] == Decimal(n);
      assert SplitSign(s) == (true, Decimal(n));
    } else {
      assert SplitSign(s) == (false, Decimal(n));
    }
  }

  /** Every 32-bit value survives rendering followed by parsing. */
  lemma ParseFormat(i: int)
    requires InRange(i)
    ensures Parse(Format(i)) == Some(i)
  {
    ParseOfFormat(i);
  }

  /** A value outside the 32-bit range is rejected, however it is written. */
  lemma ParseRejectsOutOfRange(i: int)
    requires !InRange(i)
    ensures Parse(Format(i)).None?
  {
    ParseOfFormat(i);
  }

}

=== FILE: registry.dfy ===
/**
 `CommandRegistry`: a dictionary from command name to command. Registration
 stores the name exactly as given; lookup lower-cases the name it is asked for.
 */
module CommandRegistry {
  import opened Wrappers
  import opened Text
  import opened Commands

  type Registry = map<string, Command>

  /** `Register`: bind name to c, replacing any earlier binding of the very same
      name and leaving every other name as it was. */
  function Register(r: Registry, name: string, c: Command): (r': Registry)
    ensures name in r' && r'[name] == c
    ensures forall k :: k != name ==> (k in r' <==> k in r)
    ensures forall k :: k != name && k in r ==> r'[k] == r[k]
  {
    r[name := c]
  }

  /** `GetCommand`: the command bound to the lower-cased query, if any. */
  function GetCommand(r: Registry, name: string): (found: Option<Command>)
    ensures found.Some? <==> ToLower(name) in r
    ensures found.Some? ==> found.value == r[ToLower(name)]
  {
    var key := ToLower(name);
    if key in r then Some(r[key]) else None
  }

  /** The registry the constructor builds. */
  function Initial(): (r: Registry)
    ensures r.Keys == {"echo", "add"}
    ensures r["echo"] == Echo && r["add"] == Add
  {
    Register(Register(map[], "echo", Echo), "add", Add)
  }

  /** Names that agree after lower-casing find the same command. */
  lemma LookupIgnoresCase(r: Registry, a: string, b: string)
    requires ToLower(a) == ToLower(b)
    ensures GetCommand(r, a) == GetCommand(r, b)
  {
  }

  /** A lookup after a registration finds the new command exactly when the
      lower-cased query is the registered name, and otherwise finds what it
      found before. */
  lemma LookupAfterRegister(r: Registry, k: string, c: Command, n: string)
    ensures GetCommand(Register(r, k, c), n) == if ToLower(n) == k then Some(c) else GetCommand(r, n)
  {
  }

  /** A name registered with an upper-case letter in it can never be looked up:
      registering it changes no lookup. */
  lemma MixedCaseNameUnreachable(r: Registry, k: string, c: Command, n: string)
    requires ToLower(k) != k
    ensures GetCommand(Register(r, k, c), n) == GetCommand(r, n)
  {
    if ToLower(n) == k {
      ToLowerIdempotent(n);
      assert false;
    }
  }

  /** The built-in registry answers "echo" and "add" in any letter case, and
      nothing else. */
  lemma InitialLookup(n: string)
    ensures GetCommand(Initial(), n) == Some(Echo) <==> ToLower(n) == "echo"
    ensures GetCommand(Initial(), n) == Some(Add) <==> ToLower(n) == "add"
    ensures GetCommand(Initial(), n) == None <==> ToLower(n) != "echo" && ToLower(n) != "add"
  {
  }

  lemma InitialExamples()
    ensures GetCommand(Initial(), "ECHO") == GetCommand(Initial(), "echo") == Some(Echo)
    ensures GetCommand(Initial(), "Add") == Some(Add)
    ensures GetCommand(Initial(), "bogus") == None
  {
    assert ToLower("ECHO") == "echo";
    assert ToLower("echo") == "echo";
    assert ToLower("Add") == "add";
    assert |ToLower("bogus")| == 5;
  }

}

=== FILE: shell.dfy ===
/**
 The loop of `EnhancedShell.Main`: read a line, stop on "exit", otherwise
 tokenize it, run the named command or report it unknown, and record every
 line that is not blank in the history.
 */
module Shell {
  import opened Wrappers
  import opened Text
  import opened Tokenizer
  import opened Commands
  import opened CommandRegistry
  import opened LineEditor

  /** The long-lived state of the shell: the registry, the history and the
      history cursor `ReadInput` left behind. */
  datatype Session = Session(registry: Registry, history: seq<string>, cursor: int)

  /** The cursor is in range and no blank line was ever recorded. */
  predicate SessionValid(s: Session) {
    && -1 <= s.cursor < |s.history|
    && forall i :: 0 <= i < |s.history| ==> !IsBlank(s.history[i])
  }

  /** The state at start-up. */
  function Start(): (s: Session)
    ensures SessionValid(s) && s.history == [] && s.cursor == -1
    ensures GetCommand(s.registry, "echo") == Some(Echo) && GetCommand(s.registry, "add") == Some(Add)
  {
    assert ToLower("echo") == "echo" && ToLower("add") == "add";
    Session(Initial(), [], -1)
  }

  const ExitMessage: string := "Exiting shell..."
  const UnknownPrefix: string := "Unknown command: "

  /** Whether the line is "exit" in some letter case; such a line is never blank. */
  predicate IsExit(line: string)
    ensures IsExit(line) ==> |line| == 4 && !IsBlank(line)
  {
    var exit := ToLower(line) == "exit";
    assert exit ==> '!' <= line[0] <= '~' by {
      if exit {
        assert LowerChar(line[0]) == ToLower(line)[0] == 'e';
      }
    }
    exit
  }

  /** The lines written for one line of input, the new state, and whether the
      loop stops. */
  datatype LineResult = LineResult(outputs: seq<string>, session: Session, exit: bool)

  /** Run the command the first token names, with the other tokens as its
      arguments; a line with no tokens writes nothing. */
  function Dispatch(registry: Registry, parts: seq<string>): (out: seq<string>)
    ensures |out| == if |parts| == 0 then 0 else 1
  {
    if |parts| == 0 then []
    else
      match GetCommand(registry, parts[0])
      case Some(c) => [Execute(c, parts[1..])]
      case None => [UnknownPrefix + parts[0]]
  }

  /** One turn of the loop for the line `ReadInput` returned. */
  function HandleLine(s: Session, line: string): (r: LineResult)
    requires SessionValid(s)
    ensures SessionValid(r.session) && r.session.registry == s.registry
    ensures r.exit <==> IsExit(line)
    ensures r.exit ==> r.outputs == [ExitMessage] && r.session == s
    ensures !r.exit ==> (r.outputs == [] <==> Tokenize(line) == [])
    ensures !r.exit ==> (|r.session.history| == |s.history| + 1 <==> !IsBlank(line))
    ensures !r.exit && !IsBlank(line) ==> r.session.history == s.history + [line] && r.session.cursor == -1
    ensures !r.exit && IsBlank(line) ==> r.session == s
  {
    if IsExit(line) then LineResult([ExitMessage], s, true)
    else
      var outputs := Dispatch(s.registry, Tokenize(line));
      if !IsBlank(line) then LineResult(outputs, s.(history := s.history + [line], cursor := -1), false)
      else LineResult(outputs, s, false)
  }

  /** A first token no command answers to is reported verbatim. */
  lemma UnknownCommand(s: Session, line: string)
    requires SessionValid(s) && !IsExit(line)
    requires Tokenize(line) != [] && GetCommand(s.registry, Tokenize(line)[0]).None?
    ensures HandleLine(s, line).outputs == [UnknownPrefix + Tokenize(line)[0]]
  {
  }

  /** echo prints its arguments with every run of spaces between them reduced
      to one. */
  lemma EchoLine(s: Session, name: string, rest: string)
    requires SessionValid(s) && GetCommand(s.registry, name) == Some(Echo)
    requires name != "" && Space !in name
    ensures HandleLine(s, name + [Space] + rest).outputs == [Squeeze(rest)]
  {
    var line := name + [Space] + rest;
    assert ToLower(line)[|name|] == Space;
    assert !IsExit(line);
    TokenizeConcat(name, rest);
    TokenizeJoin([name]);
    assert Join([Space], [name]) == name;
    var parts := Tokenize(line);
    assert parts == [name] + Tokenize(rest);
    assert parts[1..] == Tokenize(rest);
    JoinTokenize(rest);
  }

  /** The loop over a list of finished lines, up to the first "exit". */
  function RunLines(s: Session, lines: seq<string>): (r: LineResult)
    requires SessionValid(s)
    ensures SessionValid(r.session) && r.session.registry == s.registry
    ensures |s.history| <= |r.session.history| && r.session.history[..|s.history|] == s.history
    decreases |lines|
  {
    if |lines| == 0 then LineResult([], s, false)
    else
      var first := HandleLine(s, lines[0]);
      if first.exit then first
      else
        var more := RunLines(first.session, lines[1..]);
        assert more.session.history[..|s.history|] == more.session.history[..|first.session.history|][..|s.history|];
        LineResult(first.outputs + more.outputs, more.session, more.exit)
  }

  /** The lines the loop reads before it meets "exit". */
  function UntilExit(lines: seq<string>): seq<string>
    decreases |lines|
  {
    if |lines| == 0 || IsExit(lines[0]) then [] else [lines[0]] + UntilExit(lines[1..])
  }

  /** The lines that are not blank, in order. */
  function NonBlank(lines: seq<string>): seq<string>
    decreases |lines|
  {
    if |lines| == 0 then []
    else (if IsBlank(lines[0]) then [] else [lines[0]]) + NonBlank(lines[1..])
  }

  /** The history is the old history followed by exactly the non-blank lines
      read before "exit", in the order they were entered. */
  lemma {:induction false} HistoryRecordsLines(s: Session, lines: seq<string>)
    requires SessionValid(s)
    ensures RunLines(s, lines).session.history == s.history + NonBlank(UntilExit(lines))
    decreases |lines|
  {
    if |lines| > 0 && !IsExit(lines[0]) {
      var first := HandleLine(s, lines[0]);
      HistoryRecordsLines(first.session, lines[1..]);
      assert UntilExit(lines) == [lines[0]] + UntilExit(lines[1..]);
      assert NonBlank(UntilExit(lines)) == NonBlank([lines[0]]) + NonBlank(UntilExit(lines[1..]));
    }
  }

  /** The loop stops exactly when some line is "exit". */
  lemma {:induction false} StopsAtExit(s: Session, lines: seq<string>)
    requires SessionValid(s)
    ensures RunLines(s, lines).exit <==> exists i :: 0 <= i < |lines| && IsExit(lines[i])
    decreases |lines|
  {
    if |lines| > 0 && !IsExit(lines[0]) {
      var first := HandleLine(s, lines[0]);
      StopsAtExit(first.session, lines[1..]);
      if exists i :: 0 <= i < |lines| && IsExit(lines[i]) {
        var i :| 0 <= i < |lines| && IsExit(lines[i]);
        assert lines[1..][i - 1] == lines[i];
      }
      if exists j :: 0 <= j < |lines[1..]| && IsExit(lines[1..][j]) {
        var j :| 0 <= j < |lines[1..]| && IsExit(lines[1..][j]);
        assert lines[j + 1] == lines[1..][j];
      }
    }
  }

  /** Nothing after an "exit" line is read: lines appended after it change
      neither the output, nor the state, nor the stop. */
  lemma {:induction false} RunLinesAfterExit(s: Session, a: seq<string>, b: seq<string>)
    requires SessionValid(s)
    requires exists i :: 0 <= i < |a| && IsExit(a[i])
    ensures RunLines(s, a + b) == RunLines(s, a)
    decreases |a|
  {
    var i :| 0 <= i < |a| && IsExit(a[i]);
    assert (a + b)[0] == a[0];
    if !IsExit(a[0]) {
      assert a[1..][i - 1] == a[i];
      assert (a + b)[1..] == a[1..] + b;
      RunLinesAfterExit(HandleLine(s, a[0]).session, a[1..], b);
    }
  }

  /** After the loop, the newest history entry is the last non-blank line read
      before "exit". */
  lemma NewestEntry(s: Session, lines: seq<string>)
    requires SessionValid(s)
    requires NonBlank(UntilExit(lines)) != []
    ensures var h := RunLines(s, lines).session.history;
      var entered := NonBlank(UntilExit(lines));
      |h| > 0 && h[|h| - 1] == entered[|entered| - 1]
  {
    HistoryRecordsLines(s, lines);
  }

  lemma TokensOfTwo(a: string, b: string)
    requires a != "" && Space !in a && b != "" && Space !in b
    ensures Tokenize(a + [Space] + b) == [a, b]
  {
    TokenizeJoin([a, b]);
    assert Join([Space], [a, b]) == a + [Space] + b;
  }

  /** A line that is not "exit" writes what dispatching its tokens writes. */
  lemma LineOutputs(s: Session, line: string, parts: seq<string>)
    requires SessionValid(s) && !IsExit(line) && Tokenize(line) == parts
    ensures HandleLine(s, line).outputs == Dispatch(s.registry, parts)
  {
  }

  /** A non-blank line whose tokens name a registered command runs it on the
      remaining tokens and is recorded. */
  lemma CommandLine(s: Session, line: string, name: string, args: seq<string>, c: Command)
    requires SessionValid(s) && !IsExit(line) && !IsBlank(line)
    requires Tokenize(line) == [name] + args && GetCommand(s.registry, name) == Some(c)
    ensures HandleLine(s, line).outputs == [Execute(c, args)]
    ensures HandleLine(s, line).session.history == s.history + [line]
  {
    assert ([name] + args)[1..] == args;
  }

  lemma TokensOfEchoLine()
    ensures Tokenize("echo hi") == ["echo"] + ["hi"]
  {
    assert "echo hi" == "echo" + [Space] + "hi";
    TokensOfTwo("echo", "hi");
  }

  /** "echo hi" prints "hi". */
  lemma EchoHi(s: Session)
    requires SessionValid(s) && GetCommand(s.registry, "echo") == Some(Echo)
    ensures HandleLine(s, "echo hi").outputs == ["hi"]
    ensures HandleLine(s, "echo hi").session.history == s.history + ["echo hi"]
  {
    var line := "echo hi";
    TokensOfEchoLine();
    assert !IsBlank(line) by {
      assert line[0] == 'e';
    }
    CommandLine(s, line, "echo", ["hi"], Echo);
  }

  lemma TokensOfAddLine()
    ensures Tokenize("add 2 3") == ["add"] + ["2", "3"]
  {
    assert "add 2 3" == "add" + [Space] + "2 3";
    assert "2 3" == "2" + [Space] + "3";
    TokensOfTwo("2", "3");
    TokenizeJoin(["add"]);
    TokenizeConcat("add", "2 3");
  }

  /** "add 2 3" prints "Result: 5". */
  lemma AddTwoThreeLine(s: Session)
    requires SessionValid(s) && GetCommand(s.registry, "add") == Some(Add)
    ensures HandleLine(s, "add 2 3").outputs == ["Result: 5"]
    ensures HandleLine(s, "add 2 3").session.history == s.history + ["add 2 3"]
  {
    var line := "add 2 3";
    assert Tokenize(line) == ["add"] + ["2", "3"] by {
      TokensOfAddLine();
    }
    assert !IsBlank(line) by {
      assert line[0] == 'a';
    }
    CommandLine(s, line, "add", ["2", "3"], Add);
    AddTwoThree();
  }

  /** "bogus" is reported as an unknown command. */
  lemma BogusLine(s: Session)
    requires SessionValid(s) && GetCommand(s.registry, "bogus").None?
    ensures HandleLine(s, "bogus").outputs == [UnknownPrefix + "bogus"]
    ensures HandleLine(s, "bogus").session.history == s.history + ["bogus"]
  {
    var line := "bogus";
    assert Tokenize(line) == [line] by {
      TokenizeJoin([line]);
    }
    assert !IsBlank(line) by {
      assert line[0] == 'b';
    }
    UnknownCommand(s, line);
  }

  /** A line that is not "exit" is handled and the loop goes on with the rest. */
  lemma RunLinesCons(s: Session, line: string, rest: seq<string>)
    requires SessionValid(s) && !IsExit(line)
    ensures var first := HandleLine(s, line);
      var more := RunLines(first.session, rest);
      RunLines(s, [line] + rest) == LineResult(first.outputs + more.outputs, more.session, more.exit)
  {
    assert ([line] + rest)[0] == line;
    assert ([line] + rest)[1..] == rest;
  }

  /** The registry answers the names of the example session as the built-in
      one does: echo and add are found, bogus is not. */
  predicate ExampleRegistry(r: Registry) {
    GetCommand(r, "echo") == Some(Echo) && GetCommand(r, "add") == Some(Add) && GetCommand(r, "bogus").None?
  }

  /** What a list of lines writes, whether it stops, and what it records. */
  predicate Yields(s: Session, lines: seq<string>, outputs: seq<string>, recorded: seq<string>)
    requires SessionValid(s)
  {
    var r := RunLines(s, lines);
    r.outputs == outputs && r.exit && r.session.history == s.history + recorded && r.session.registry == s.registry
  }

  /** A recorded line with one line of output, followed by lines that stop the
      loop, yields its output and record in front of theirs. */
  lemma YieldsCons(s: Session, line: string, out: string, rest: seq<string>, outs: seq<string>, recorded: seq<string>)
    requires SessionValid(s) && !IsExit(line) && !IsBlank(line)
    requires HandleLine(s, line).outputs == [out]
    requires Yields(HandleLine(s, line).session, rest, outs, recorded)
    ensures Yields(s, [line] + rest, [out] + outs, [line] + recorded)
  {
    RunLinesCons(s, line, rest);
    assert s.history + [line] + recorded == s.history + ([line] + recorded);
  }

  lemma ExitLine(s: Session)
    requires SessionValid(s)
    ensures Yields(s, ["exit"], [ExitMessage], [])
  {
    assert ToLower("exit") == "exit";
  }

  lemma BogusThenExit(s: Session)
    requires SessionValid(s) && ExampleRegistry(s.registry)
    ensures Yields(s, ["bogus", "exit"], [UnknownPrefix + "bogus", ExitMessage], ["bogus"])
  {
    assert ["bogus"] + ["exit"] == ["bogus", "exit"];
    assert [UnknownPrefix + "bogus"] + [ExitMessage] == [UnknownPrefix + "bogus", ExitMessage];
    assert ["bogus"] + [] == ["bogus"];
    BogusLine(s);
    ExitLine(HandleLine(s, "bogus").session);
    YieldsCons(s, "bogus", UnknownPrefix + "bogus", ["exit"], [ExitMessage], []);
  }

  lemma AddThenRest(s: Session)
    requires SessionValid(s) && ExampleRegistry(s.registry)
    ensures Yields(s, ["add 2 3", "bogus", "exit"], ["Result: 5", UnknownPrefix + "bogus", ExitMessage], ["add 2 3", "bogus"])
  {
    assert ["add 2 3"] + ["bogus", "exit"] == ["add 2 3", "bogus", "exit"];
    assert ["Result: 5"] + [UnknownPrefix + "bogus", ExitMessage] == ["Result: 5", UnknownPrefix + "bogus", ExitMessage];
    assert ["add 2 3"] + ["bogus"] == ["add 2 3", "bogus"];
    AddTwoThreeLine(s);
    BogusThenExit(HandleLine(s, "add 2 3").session);
    YieldsCons(s, "add 2 3", "Result: 5", ["bogus", "exit"], [UnknownPrefix + "bogus", ExitMessage], ["bogus"]);
  }

  /** The session of "echo hi", "add 2 3", "bogus", "exit", from any state
      whose registry answers those names as the built-in one does. */
  lemma Scenario(s: Session)
    requires SessionValid(s) && ExampleRegistry(s.registry)
    ensures Yields(s, ["echo hi", "add 2 3", "bogus", "exit"],
                   ["hi", "Result: 5", UnknownPrefix + "bogus", ExitMessage],
                   ["echo hi", "add 2 3", "bogus"])
  {
    assert ["echo hi"] + ["add 2 3", "bogus", "exit"] == ["echo hi", "add 2 3", "bogus", "exit"];
    assert ["hi"] + ["Result: 5", UnknownPrefix + "bogus", ExitMessage] == ["hi", "Result: 5", UnknownPrefix + "bogus", ExitMessage];
    assert ["echo hi"] + ["add 2 3", "bogus"] == ["echo hi", "add 2 3", "bogus"];
    EchoHi(s);
    AddThenRest(HandleLine(s, "echo hi").session);
    YieldsCons(s, "echo hi", "hi", ["add 2 3", "bogus", "exit"],
               ["Result: 5", UnknownPrefix + "bogus", ExitMessage], ["add 2 3", "bogus"]);
  }

  /** The same session right after start-up. */
  lemma ScenarioFromStart()
    ensures Yields(Start(), ["echo hi", "add 2 3", "bogus", "exit"],
                   ["hi", "Result: 5", UnknownPrefix + "bogus", ExitMessage],
                   ["echo hi", "add 2 3", "bogus"])
  {
    InitialExamples();
    Scenario(Start());
  }

  /** The whole shell driven by key presses: each finished line is handled in
      turn until "exit", or until the keys run out before an Enter. */
  function Run(s: Session, keys: seq<KeyInfo>): (r: LineResult)
    requires SessionValid(s)
    ensures SessionValid(r.session) && r.session.registry == s.registry
    ensures |s.history| <= |r.session.history| && r.session.history[..|s.history|] == s.history
    decreases |keys|
  {
    match Feed(Fresh(s.history), keys)
    case None => LineResult([], s, false)
    case Some(sub) =>
      var first := HandleLine(s.(cursor := sub.cursor), sub.line);
      if first.exit then first
      else
        var more := Run(first.session, sub.rest);
        assert more.session.history[..|s.history|] == more.session.history[..|first.session.history|][..|s.history|];
        LineResult(first.outputs + more.outputs, more.session, more.exit)
  }

  /** Typing a printable line and pressing Enter hands that line to the loop. */
  lemma TypedLine(s: Session, w: string, rest: seq<KeyInfo>)
    requires SessionValid(s) && Printable(w)
    ensures Feed(Fresh(s.history), Typed(w) + [EnterPress] + rest) == Some(Submission(w, -1, rest))
  {
    TypingAppends(Fresh(s.history), w);
    assert "" + w == w;
    FeedThenEnter(Fresh(s.history), Typed(w), EnterPress, rest);
  }

  /** Up then Enter at a fresh prompt submits the newest history entry again, and
      it is recorded a second time. */
  lemma RecallResubmits(s: Session, rest: seq<KeyInfo>)
    requires SessionValid(s) && |s.history| > 0
    ensures var newest := s.history[|s.history| - 1];
      Feed(Fresh(s.history), [UpPress, EnterPress] + rest) == Some(Submission(newest, 0, rest))
    ensures var newest := s.history[|s.history| - 1];
      !IsExit(newest) ==> HandleLine(s.(cursor := 0), newest).session.history == s.history + [newest]
  {
    assert [UpPress, EnterPress] + rest == [UpPress] + [EnterPress] + rest;
    FeedThenEnter(Fresh(s.history), [UpPress], EnterPress, rest);
  }

  /** The key presses that type each line and press Enter after it. */
  function KeysFor(lines: seq<string>): seq<KeyInfo>
    decreases |lines|
  {
    if |lines| == 0 then [] else Typed(lines[0]) + [EnterPress] + KeysFor(lines[1..])
  }

  predicate AllPrintable(lines: seq<string>) {
    forall i :: 0 <= i < |lines| ==> Printable(lines[i])
  }

  /** Typing printable lines, each followed by Enter, drives the shell exactly
      as handing it the finished lines does: the same output, the same history
      and the same stop, from any two sessions that agree on registry and
      history (the history cursor `ReadInput` leaves behind is never read). */
  lemma {:induction false} RunTypedLines(s: Session, t: Session, lines: seq<string>)
    requires SessionValid(s) && SessionValid(t) && s.registry == t.registry && s.history == t.history
    requires AllPrintable(lines)
    ensures var typed := Run(s, KeysFor(lines));
      var given := RunLines(t, lines);
      typed.outputs == given.outputs && typed.session.history == given.session.history && typed.exit == given.exit
    decreases |lines|
  {
    if |lines| > 0 {
      var line := lines[0];
      var keys := KeysFor(lines[1..]);
      assert KeysFor(lines) == Typed(line) + [EnterPress] + keys;
      TypedLine(s, line, keys);
      var first := HandleLine(s.(cursor := -1), line);
      var other := HandleLine(t, line);
      assert first.outputs == other.outputs && first.exit == other.exit;
      if !first.exit {
        assert forall i :: 0 <= i < |lines[1..]| ==> lines[1..][i] == lines[i + 1];
        RunTypedLines(first.session, other.session, lines[1..]);
      }
    }
  }

  /** The key-driven shell writes, records and stops exactly as the loop over
      the typed lines. */
  lemma RunMatchesRunLines(s: Session, lines: seq<string>)
    requires SessionValid(s) && AllPrintable(lines)
    ensures var typed := Run(s, KeysFor(lines));
      var given := RunLines(s, lines);
      typed.outputs == given.outputs && typed.session.history == given.session.history && typed.exit == given.exit
  {
    RunTypedLines(s, s, lines);
  }

  /** The keys for a non-empty list of lines, followed by further keys, start
      with the first line typed and Enter. */
  lemma KeysForThen(lines: seq<string>, keys: seq<KeyInfo>)
    requires |lines| > 0
    ensures KeysFor(lines) + keys == Typed(lines[0]) + [EnterPress] + (KeysFor(lines[1..]) + keys)
  {
  }

  /** Once a typed "exit" line is entered, the keys pressed after it are never
      read: the key-driven shell writes, records and stops as the loop over the
      typed lines, whatever keys follow. */
  lemma {:induction false} RunIgnoresKeysAfterExit(s: Session, t: Session, lines: seq<string>, keys: seq<KeyInfo>)
    requires SessionValid(s) && SessionValid(t) && s.registry == t.registry && s.history == t.history
    requires AllPrintable(lines) && exists i :: 0 <= i < |lines| && IsExit(lines[i])
    ensures var typed := Run(s, KeysFor(lines) + keys);
      var given := RunLines(t, lines);
      typed.outputs == given.outputs && typed.session.history == given.session.history && typed.exit == given.exit
    decreases |lines|
  {
    var line := lines[0];
    var later := KeysFor(lines[1..]) + keys;
    KeysForThen(lines, keys);
    TypedLine(s, line, later);
    if !IsExit(line) {
      var first := HandleLine(s.(cursor := -1), line);
      var other := HandleLine(t, line);
      assert first.outputs == other.outputs;
      var i :| 0 <= i < |lines| && IsExit(lines[i]);
      assert lines[1..][i - 1] == lines[i];
      assert forall j :: 0 <= j < |lines[1..]| ==> lines[1..][j] == lines[j + 1];
      RunIgnoresKeysAfterExit(first.session, other.session, lines[1..], keys);
    }
  }

  /** The key-driven shell handles the first line the keys finish and goes on
      with the keys after it, unless that line is "exit". */
  lemma RunCons(s: Session, keys: seq<KeyInfo>)
    requires SessionValid(s) && Feed(Fresh(s.history), keys).Some?
    ensures var sub := Feed(Fresh(s.history), keys).value;
      var first := HandleLine(s.(cursor := sub.cursor), sub.line);
      var more := Run(first.session, sub.rest);
      !first.exit ==> Run(s, keys) == LineResult(first.outputs + more.outputs, more.session, more.exit)
  {
  }

  /** Up then Enter, as the only keys, runs the newest history entry again and
      records it a second time. */
  lemma RunUpEnter(s: Session)
    requires SessionValid(s) && |s.history| > 0 && !IsExit(s.history[|s.history| - 1])
    ensures var newest := s.history[|s.history| - 1];
      var r := Run(s, [UpPress, EnterPress]);
      r.outputs == HandleLine(s, newest).outputs && r.session.history == s.history + [newest] && !r.exit
  {
    var newest := s.history[|s.history| - 1];
    RecallResubmits(s, []);
    assert [UpPress, EnterPress] + [] == [UpPress, EnterPress];
    RunCons(s, [UpPress, EnterPress]);
    var second := HandleLine(s.(cursor := 0), newest);
    assert Run(second.session, []) == LineResult([], second.session, false);
  }

  /** A typed printable line that is not "exit", then Enter, is handled and
      the shell goes on with the keys after it. */
  lemma RunTypedThen(s: Session, w: string, rest: seq<KeyInfo>)
    requires SessionValid(s) && Printable(w) && !IsExit(w)
    ensures var first := HandleLine(s.(cursor := -1), w);
      var more := Run(first.session, rest);
      Run(s, Typed(w) + [EnterPress] + rest) == LineResult(first.outputs + more.outputs, more.session, more.exit)
  {
    TypedLine(s, w, rest);
    RunCons(s, Typed(w) + [EnterPress] + rest);
  }

  lemma AppendTwice<T>(h: seq<T>, x: T)
    ensures h + [x] + [x] == h + [x, x]
  {
  }

  /** A line typed and entered, then recalled with Up and entered again, runs
      twice and is recorded twice. */
  lemma RunRecall(s: Session, w: string)
    requires SessionValid(s) && Printable(w) && !IsBlank(w) && !IsExit(w)
    ensures var r := Run(s, Typed(w) + [EnterPress, UpPress, EnterPress]);
      var o := HandleLine(s, w).outputs;
      r.outputs == o + o && r.session.history == s.history + [w, w] && !r.exit
  {
    assert Typed(w) + [EnterPress, UpPress, EnterPress] == Typed(w) + [EnterPress] + [UpPress, EnterPress];
    RunTypedThen(s, w, [UpPress, EnterPress]);
    RunUpEnter(HandleLine(s.(cursor := -1), w).session);
    AppendTwice(s.history, w);
  }

}

=== FILE: text.dfy ===
/**
 The character and string primitives of the .NET base library that the shell
 relies on: lower-casing, the control and white-space character classes, and
 joining strings with a separator.
 */
module Text {

  predicate IsUpper(c: char) {
    'A' <= c <= 'Z'
  }

  /** `char.ToLower` restricted to ASCII: an upper-case letter becomes the same
      letter in lower case, every other character is left alone. */
  function LowerChar(c: char): (r: char)
    ensures !IsUpper(r)
    ensures r == c <==> !IsUpper(c)
    ensures IsUpper(c) ==> 'a' <= r <= 'z' && r as int - 'a' as int == c as int - 'A' as int
  {
    if IsUpper(c) then (c as int - 'A' as int + 'a' as int) as char else c
  }

  /** `string.ToLower`, character by character. */
  function ToLower(s: string): (r: string)
    ensures |r| == |s|
    ensures forall i :: 0 <= i < |s| ==> r[i] == LowerChar(s[i])
    decreases |s|
  {
    if |s| == 0 then "" else [LowerChar(s[0])] + ToLower(s[1..])
  }

  /** Lower-casing twice is lower-casing once. */
  lemma ToLowerIdempotent(s: string)
    ensures ToLower(ToLower(s)) == ToLower(s)
  {
    var t := ToLower(s);
    assert forall i :: 0 <= i < |t| ==> ToLower(t)[i] == t[i];
  }

  /** `char.IsControl`: the Unicode general category Cc, that is U+0000..U+001F
      and U+007F..U+009F. */
  predicate IsControl(c: char)
    ensures ' ' <= c <= '~' ==> !IsControl(c)
    ensures c == '\0' || c == '\U{8}' || c == '\r' || c == '\U{7F}' ==> IsControl(c)
  {
    c as int <= 0x1F || 0x7F <= c as int <= 0x9F
  }

  /** `char.IsWhiteSpace`: the Unicode space, line and paragraph separators plus
      U+0009..U+000D and U+0085. */
  predicate IsWhiteSpace(c: char)
    ensures '!' <= c <= '~' ==> !IsWhiteSpace(c)
    ensures c == ' ' || c == '\t' || c == '\n' || c == '\r' ==> IsWhiteSpace(c)
  {
    var n := c as int;
    || 0x09 <= n <= 0x0D
    || n == 0x20 || n == 0x85 || n == 0xA0 || n == 0x1680
    || 0x2000 <= n <= 0x200A
    || n == 0x2028 || n == 0x2029 || n == 0x202F || n == 0x205F || n == 0x3000
  }

  /** `string.IsNullOrWhiteSpace` on a non-null string: empty, or white space only. */
  predicate IsBlank(s: string)
    ensures s == "" ==> IsBlank(s)
    ensures (exists i :: 0 <= i < |s| && '!' <= s[i] <= '~') ==> !IsBlank(s)
  {
    forall i :: 0 <= i < |s| ==> IsWhiteSpace(s[i])
  }

  /** `string.Join(sep, parts)`: the parts in order with sep between neighbours. */
  function Join(sep: string, parts: seq<string>): (r: string)
    ensures parts == [] ==> r == ""
    ensures |parts| == 1 ==> r == parts[0]
    decreases |parts|
  {
    if |parts| == 0 then ""
    else if |parts| == 1 then parts[0]
    else parts[0] + sep + Join(sep, parts[1..])
  }

  /** Putting a character in front of the first part puts it in front of the joined string. */
  lemma JoinConsChar(sep: string, c: char, first: string, rest: seq<string>)
    ensures Join(sep, [[c] + first] + rest) == [c] + Join(sep, [first] + rest)
  {
    var parts := [[c] + first] + rest;
    if |rest| > 0 {
      assert parts[1..] == rest;
      assert ([first] + rest)[1..] == rest;
    }
  }

  /** Joining a list whose first part is non-empty yields a non-empty string. */
  lemma JoinNonEmpty(sep: string, parts: seq<string>)
    requires |parts| > 0 && parts[0] != ""
    ensures Join(sep, parts) != ""
  {
    if |parts| > 1 {
      assert Join(sep, parts)[0] == parts[0][0];
    }
  }

}

=== FILE: tokenizer.dfy ===
/**
 `ParseInput`: `line.Split(' ', StringSplitOptions.RemoveEmptyEntries)`.
 The line is cut at every single space character (not at other white space)
 and the empty pieces are dropped.
 */
module Tokenizer {
  import opened Text

  const Space: char := ' '

  /** How many times c occurs in s. */
  function Occurrences(s: string, c: char): nat
    decreases |s|
  {
    if |s| == 0 then 0 else (if s[0] == c then 1 else 0) + Occurrences(s[1..], c)
  }

  /** `s.Split(sep)` with no options: the pieces between separators, empty ones included. */
  function Split(s: string, sep: char): (r: seq<string>)
    ensures |r| == Occurrences(s, sep) + 1
    ensures forall i :: 0 <= i < |r| ==> sep !in r[i]
    decreases |s|
  {
    if |s| == 0 then [""]
    else
      var rest := Split(s[1..], sep);
      if s[0] == sep then [""] + rest
      else [[s[0]] + rest[0]] + rest[1..]
  }

  /** `StringSplitOptions.RemoveEmptyEntries`: the non-empty pieces, in order. */
  function RemoveEmpty(parts: seq<string>): (r: seq<string>)
    ensures |r| <= |parts|
    ensures forall i :: 0 <= i < |r| ==> r[i] != ""
    ensures forall t :: t in r <==> t in parts && t != ""
    decreases |parts|
  {
    if |parts| == 0 then []
    else (if parts[0] == "" then [] else [parts[0]]) + RemoveEmpty(parts[1..])
  }

  /** The tokens of a line: first the command name, then its arguments. */
  function Tokenize(line: string): (r: seq<string>)
    ensures forall i :: 0 <= i < |r| ==> r[i] != "" && Space !in r[i]
  {
    var pieces := Split(line, Space);
    assert forall t :: t in pieces ==> Space !in t;
    RemoveEmpty(pieces)
  }

  /** A reference description of what joining the tokens gives, written one
      character at a time: spaces before the first other character are skipped,
      and a character other than a space keeps one space after it exactly when a
      space follows it and something other than spaces comes later. */
  function Squeeze(s: string): string
    decreases |s|
  {
    if |s| == 0 then ""
    else if s[0] == Space then Squeeze(s[1..])
    else
      var tail := Squeeze(s[1..]);
      if |s| > 1 && s[1] == Space && tail != "" then [s[0], Space] + tail
      else [s[0]] + tail
  }

  /** A list of tokens as `Tokenize` produces them. */
  predicate AreTokens(ts: seq<string>) {
    forall i :: 0 <= i < |ts| ==> ts[i] != "" && Space !in ts[i]
  }

  lemma RemoveEmptyConcat(a: seq<string>, b: seq<string>)
    ensures RemoveEmpty(a + b) == RemoveEmpty(a) + RemoveEmpty(b)
    decreases |a|
  {
    if |a| > 0 {
      assert (a + b)[1..] == a[1..] + b;
      RemoveEmptyConcat(a[1..], b);
    } else {
      assert a + b == b;
    }
  }

  /** Dropping empty pieces from pieces that are all non-empty changes nothing. */
  lemma {:induction false} RemoveEmptyKeeps(parts: seq<string>)
    requires forall i :: 0 <= i < |parts| ==> parts[i] != ""
    ensures RemoveEmpty(parts) == parts
    decreases |parts|
  {
    if |parts| > 0 {
      RemoveEmptyKeeps(parts[1..]);
    }
  }

  /** Splitting a string joined with a separator at one separator occurrence
      splits each side separately. */
  lemma {:induction false} SplitConcat(a: string, b: string, sep: char)
    ensures Split(a + [sep] + b, sep) == Split(a, sep) + Split(b, sep)
    decreases |a|
  {
    var s := a + [sep] + b;
    if |a| == 0 {
      assert s[1..] == b;
    } else {
      assert s[1..] == a[1..] + [sep] + b;
      SplitConcat(a[1..], b, sep);
    }
  }

  /** A string with no separator in it is a single piece. */
  lemma {:induction false} SplitWithoutSeparator(w: string, sep: char)
    requires sep !in w
    ensures Split(w, sep) == [w]
    decreases |w|
  {
    if |w| > 0 {
      assert sep !in w[1..];
      SplitWithoutSeparator(w[1..], sep);
      assert [w[0]] + w[1..] == w;
    }
  }

  /** Joining the pieces of a split with the separator gives back the string. */
  lemma {:induction false} JoinSplit(s: string, sep: char)
    ensures Join([sep], Split(s, sep)) == s
    decreases |s|
  {
    if |s| > 0 {
      var rest := Split(s[1..], sep);
      JoinSplit(s[1..], sep);
      if s[0] == sep {
        assert ([""] + rest)[1..] == rest;
      } else {
        JoinConsChar([sep], s[0], rest[0], rest[1..]);
        assert [rest[0]] + rest[1..] == rest;
      }
    }
  }

  /** Splitting pieces joined with the separator gives back the pieces, as long
      as no piece holds the separator. */
  lemma {:induction false} SplitJoin(parts: seq<string>, sep: char)
    requires |parts| > 0
    requires forall i :: 0 <= i < |parts| ==> sep !in parts[i]
    ensures Split(Join([sep], parts), sep) == parts
    decreases |parts|
  {
    SplitWithoutSeparator(parts[0], sep);
    if |parts| > 1 {
      SplitJoin(parts[1..], sep);
      SplitConcat(parts[0], Join([sep], parts[1..]), sep);
      assert [parts[0]] + parts[1..] == parts;
    }
  }

  /** The tokens of two strings glued with a space are the tokens of each. */
  lemma TokenizeConcat(a: string, b: string)
    ensures Tokenize(a + [Space] + b) == Tokenize(a) + Tokenize(b)
  {
    SplitConcat(a, b, Space);
    RemoveEmptyConcat(Split(a, Space), Split(b, Space));
  }

  /** A leading space never matters. */
  lemma TokenizeLeadingSpace(s: string)
    requires |s| > 0 && s[0] == Space
    ensures Tokenize(s) == Tokenize(s[1..])
  {
    assert ([""] + Split(s[1..], Space))[1..] == Split(s[1..], Space);
  }

  /** Joining valid tokens with single spaces and tokenizing gives them back. */
  lemma TokenizeJoin(ts: seq<string>)
    requires AreTokens(ts)
    ensures Tokenize(Join([Space], ts)) == ts
  {
    if |ts| > 0 {
      SplitJoin(ts, Space);
      RemoveEmptyKeeps(ts);
    }
  }

  /** A line yields no tokens exactly when it is made of spaces only. */
  lemma {:induction false} TokenizeEmpty(s: string)
    ensures Tokenize(s) == [] <==> forall i :: 0 <= i < |s| ==> s[i] == Space
    decreases |s|
  {
    if |s| > 0 {
      TokenizeEmpty(s[1..]);
      if s[0] == Space {
        TokenizeLeadingSpace(s);
        assert forall i :: 1 <= i < |s| ==> s[i] == s[1..][i - 1];
      } else {
        var rest := Split(s[1..], Space);
        assert Split(s, Space)[0] == [s[0]] + rest[0];
        assert Tokenize(s)[0] == [s[0]] + rest[0];
      }
    }
  }

  /** Joining the tokens with single spaces gives the line with the leading and
      trailing spaces removed and each inner run of spaces reduced to one. */
  lemma {:induction false} JoinTokenize(s: string)
    ensures Join([Space], Tokenize(s)) == Squeeze(s)
    decreases |s|
  {
    if |s| > 0 {
      JoinTokenize(s[1..]);
      if s[0] == Space {
        TokenizeLeadingSpace(s);
      } else if |s| > 1 && s[1] == Space {
        JoinTokenizeWordEnd(s);
      } else {
        JoinTokenizeInWord(s);
      }
    }
  }

  /** A character followed by a space is a token of its own, and the tokens
      after the space follow it. */
  lemma TokenizeWordEnd(s: string)
    requires |s| > 1 && s[0] != Space && s[1] == Space
    ensures Tokenize(s) == [[s[0]]] + Tokenize(s[1..])
  {
    var c := s[0];
    var u := s[2..];
    assert s == [c] + [Space] + u;
    assert s[1..][1..] == u;
    TokenizeConcat([c], u);
    TokenizeJoin([[c]]);
    TokenizeLeadingSpace(s[1..]);
  }

  /** The step of `JoinTokenize` for a word's last character followed by a space. */
  lemma JoinTokenizeWordEnd(s: string)
    requires |s| > 1 && s[0] != Space && s[1] == Space
    requires Join([Space], Tokenize(s[1..])) == Squeeze(s[1..])
    ensures Join([Space], Tokenize(s)) == Squeeze(s)
  {
    var ts := Tokenize(s[1..]);
    TokenizeWordEnd(s);
    if ts != [] {
      JoinNonEmpty([Space], ts);
      assert ([[s[0]]] + ts)[1..] == ts;
    }
  }

  /** The step of `JoinTokenize` for a character inside a word, or at the end
      of the line. */
  lemma JoinTokenizeInWord(s: string)
    requires |s| > 0 && s[0] != Space && (|s| == 1 || s[1] != Space)
    requires Join([Space], Tokenize(s[1..])) == Squeeze(s[1..])
    ensures Join([Space], Tokenize(s)) == Squeeze(s)
  {
    var c := s[0];
    var tail := s[1..];
    var rest := Split(tail, Space);
    assert Split(s, Space) == [[c] + rest[0]] + rest[1..];
    assert Tokenize(s) == [[c] + rest[0]] + RemoveEmpty(rest[1..]);
    if |s| == 1 {
      assert rest == [""];
    } else {
      assert rest[0] != "";
      assert rest == [rest[0]] + rest[1..];
      assert Tokenize(tail) == [rest[0]] + RemoveEmpty(rest[1..]);
      JoinConsChar([Space], c, rest[0], RemoveEmpty(rest[1..]));
    }
  }

}

=== FILE: wrappers.dfy ===
/** The optional value the source expresses with a nullable reference or a `Try…` boolean. */
module Wrappers {

  datatype Option<+T> = None | Some(value: T)

}
